=== FILE: README.md ===
# Raycaster core in Dafny

This project models the per-frame core of a grid-based pseudo-3D renderer
written in Python with pygame.

The ray caster (`raycasting.py`) casts one ray per screen column. Each ray
walks the tile grid along horizontal grid lines and along vertical grid
lines, at most MAX_DEPTH steps each. It keeps the nearer wall hit,
preferring the horizontal one on a tie. It derives the texture offset from
the fractional part of the hit coordinate and corrects the distance for
the fisheye effect. The projected wall height is
SCREEN_DIST / (depth + 0.0001). Every result then becomes a wall strip: a
SCALE-wide column cut out of the wall's texture and scaled to the wall
height, or cropped to the visible part when the wall is taller than the
screen.

The compositor (`object_renderer.py`) scrolls the sky by 4.5 pixels per
unit of turning, wrapping modulo WIDTH. It draws the sky twice side by
side, then fills the floor and draws the strips farthest first. Then it
draws the health counter: the digits of `str(health)` and a health icon.
The crosshair, drawn last, is not part of this model.

Modules:

- `Results` (results.dfy): `Result<T>` with one error per Python exception
  the modelled code raises itself. A float division by zero (ZeroDivisionError), a wall
  id with no texture, and a character with no digit image (both KeyError)
  are outcomes of the model, not preconditions.
- `PyMath` (pymath.dfy): Python's `int()` truncation toward zero, float
  `%` and `//` by a positive divisor, and `x % 1`, over exact reals.
- `Settings` (settings.dfy): the screen and projection constants as one
  `Config` record. settings.py is not part of this model, so only the
  relations the renderer relies on are stated: positive sizes, halves by
  floor division, and SCALE <= TEXTURE_SIZE.
- `RayCasting` (raycasting.dfy): `ray_cast` and `get_objects_to_render`.
- `ObjectRenderer` (object_renderer.dfy): `render_game_objects`,
  `draw_background` and `draw_player_health`.

`math.sin` and `math.cos` are parameters of type `real -> real`, so every
property holds for any sine and cosine. A few behaviours of the code
differ from what the names suggest; the model follows the code:

- The texture offset lies in [0, 1], not [0, 1). `1 - (y % 1)` is 1 on a
  grid line (`RayCasting.OffsetReachesOne`).
- A walk that finds no wall within MAX_DEPTH steps leaves its wall id as
  it was. The horizontal and the vertical walk each keep their own id: the
  one that same walk last read on an earlier ray of the frame, or 1 if it
  has read none. That id can differ from the one the previous ray
  reported, which comes from whichever of its two walks was nearer
  (`RayCasting.ColumnSelection`).
- A wall id with no texture is not rejected at load time. It raises
  KeyError while the strips of a frame are built
  (`RayCasting.ObjectsToRender`).
- The distance is not always non-negative. The raw distance along the ray
  is negative for a viewer at a negative coordinate looking towards it
  (`RayCasting.StartBehindViewer`), and the fisheye factor
  cos(player.angle - ray_angle) is negative for a ray more than a quarter
  turn from the view direction. The distances are non-negative when the
  viewer is at non-negative coordinates inside its tile and every fisheye
  factor is non-negative (`RayCasting.RayCastTotal`).

## Model

| member | source | states |
|---|---|---|
| PyMath.Trunc | raycasting.py:61 | `int(x)` is the integer next to x towards zero: n <= x < n + 1 for x >= 0, n - 1 < x <= n for x < 0 |
| PyMath.FloorMod | object_renderer.py:52 | `a % m` for m > 0 lies in [0, m) and differs from a by a whole multiple of m |
| PyMath.Frac | raycasting.py:91 | `x % 1` lies in [0, 1) and differs from x by an integer |
| PyMath.FloorDiv | raycasting.py:25 | `a // b` for b > 0 is the integral value q with q <= a / b < q + 1 |
| PyMath.FloorModUnique | object_renderer.py:52 | the remainder is the only value in [0, m) that differs from a by a whole multiple of m |
| PyMath.FloorModShift | object_renderer.py:52 | adding whole multiples of the modulus does not change the remainder |
| RayCasting.WalkGrid | raycasting.py:60-67 | a bounded walk stops at the first point whose tile `(int(x), int(y))` is a wall and reads that wall's id; every earlier tile is free; with no wall within MAX_DEPTH steps it ends after MAX_DEPTH steps and keeps the id it was given |
| RayCasting.AfterClosedForm | raycasting.py:65-67 | after k steps the point and the distance have moved by k times the per-step increments |
| RayCasting.HorizontalStart | raycasting.py:51-57 | the first horizontal grid line in the direction of the ray (mapY + 1 going towards positive y, mapY - 1e-6 otherwise), the distance to it and the per-line steps; undefined (ZeroDivisionError) for sin = 0 |
| RayCasting.VerticalStart | raycasting.py:70-76 | the mirror case for the first vertical grid line, with x and y exchanged; undefined for cos = 0 |
| RayCasting.StartBehindViewer | raycasting.py:51-53 | a viewer at y = -0.5 looking towards negative y gets a negative distance to its first horizontal grid line |
| RayCasting.Tile | raycasting.py:61 | the tile looked up for a point is `(int(x), int(y))`, both truncated toward zero (the same lookup is at raycasting.py:80) |
| RayCasting.HorizontalWalk | raycasting.py:51-67 | the horizontal-line walk of one ray: the start of lines 51-57 walked by the bounded loop of lines 60-67 with the horizontal id |
| RayCasting.VerticalWalk | raycasting.py:70-86 | the vertical-line walk of one ray: the start of lines 70-76 walked by the bounded loop of lines 79-86 with the vertical id |
| RayCasting.HorizontalRows | raycasting.py:51-67 | for a viewer at y >= 0 in row int(y), the k-th probe of the horizontal walk lies in row mapY + 1 + k going towards positive y, and in row mapY - 1 - k going towards negative y while that row is above 0: the walk visits every row in turn from the viewer's |
| RayCasting.VerticalColumns | raycasting.py:70-86 | the mirror for the vertical walk: column mapX + 1 + k towards positive x, mapX - 1 - k towards negative x while above column 0 |
| RayCasting.HorizontalStartOnRay | raycasting.py:51-57 | the first crossing with a horizontal grid line lies on the ray, and so does one step along it |
| RayCasting.VerticalStartOnRay | raycasting.py:70-76 | the first crossing with a vertical grid line lies on the ray, and so does one step along it |
| RayCasting.OnRayAfter | raycasting.py:65-67 | stepping from a point on the ray keeps the point on the ray |
| RayCasting.WalkStopsOnRay | raycasting.py:60-67 | where a walk stops is the point at distance `depth` from the viewer along the ray |
| RayCasting.StartsAhead | raycasting.py:51-76 | for a viewer in tile `(int(x), int(y))` at non-negative coordinates, both first crossings are strictly ahead and each step moves further along the ray |
| RayCasting.StepsDeepen | raycasting.py:67 | each step of such a walk strictly increases the distance |
| RayCasting.WalkNotBeforeStart | raycasting.py:60-67 | such a walk never reports a distance below its first crossing |
| RayCasting.WalksAhead | raycasting.py:51-86 | both walks of a ray that is not axis-aligned end strictly ahead of such a viewer |
| RayCasting.Nearest | raycasting.py:88-96 | the kept hit is the nearer of the two walks, the horizontal one on a tie; its offset is y % 1 for a vertical-line hit with cos > 0 and 1 - (y % 1) otherwise, 1 - (x % 1) for a horizontal-line hit with sin > 0 and x % 1 otherwise; the offset lies in [0, 1] |
| RayCasting.OffsetReachesOne | raycasting.py:91-92 | an offset of exactly 1 occurs, for a vertical-line hit on a grid line by a ray pointing towards negative x |
| RayCasting.ProjectedHeight | raycasting.py:107 | the projected height times (depth + 0.0001) is SCREEN_DIST |
| RayCasting.ProjectedHeightDecreasing | raycasting.py:107 | for non-negative distances the wall height is positive and strictly decreasing in the distance |
| RayCasting.CastColumn | raycasting.py:47-110 | a zero sine or cosine raises ZeroDivisionError; a result has its offset in [0, 1] and its height times (depth + 0.0001) equal to SCREEN_DIST |
| RayCasting.FinishColumn | raycasting.py:104-110 | the result tuple carries the hit's wall id and offset, its depth is the hit's depth times the fisheye factor, the ids for the next ray are passed on, and its height times (depth + 0.0001) is SCREEN_DIST |
| RayCasting.ColumnSelection | raycasting.py:88-110 | the column's distance is the nearer raw distance times the fisheye factor and its id is that walk's id; each walk's id passes to the next ray, overwritten only by a wall hit |
| RayCasting.FisheyeShortens | raycasting.py:104 | with a fisheye factor in (0, 1] the corrected distance is at most the raw distance of the hit, and equal to it for the centre ray (factor 1) |
| RayCasting.FinishTotal | raycasting.py:104-107 | a hit at a non-negative distance with a non-negative fisheye factor gives a result with a non-negative distance and a positive height |
| RayCasting.HorizontalAhead | raycasting.py:51-57 | for a viewer at y >= 0 in row `int(y)`, the first horizontal crossing is strictly ahead and each step moves further along the ray |
| RayCasting.VerticalAhead | raycasting.py:70-76 | for a viewer at x >= 0 in column `int(x)`, the first vertical crossing is strictly ahead and each step moves further along the ray |
| RayCasting.ColumnTotal | raycasting.py:47-107 | for a viewer at non-negative coordinates, a ray that is not axis-aligned and a non-negative fisheye factor, the column succeeds with a non-negative distance and a positive height |
| RayCasting.CastRayTotal | raycasting.py:47-107 | the same for the loop body at a given ray angle |
| RayCasting.CastRay | raycasting.py:47-48 | the loop body at ray angle a takes sin(a) and cos(a) for the walks and cos(player.angle - a) as the fisheye factor of line 104 |
| RayCasting.Columns | raycasting.py:40-46 | the loop starts at ray 0, angle player.angle - HALF_FOV + 0.0001, with both wall ids 1 |
| RayCasting.RayAngle | raycasting.py:45 | ray k's angle is the first angle player.angle - HALF_FOV + 0.0001 advanced k times by DELTA_ANGLE (the advance is at raycasting.py:112) |
| RayCasting.SweepAngleNext | raycasting.py:112 | adding DELTA_ANGLE moves from the angle of ray k to the angle of ray k + 1 |
| RayCasting.Sweep | raycasting.py:46-112 | a successful sweep from ray k yields one column per remaining ray |
| RayCasting.SweepUnfold | raycasting.py:46-112 | one turn of the loop: the first column comes from the current angle and ids, the rest from the next angle and the ids that column left |
| RayCasting.SweepFollowsAngles | raycasting.py:45-112 | the loop applies the body at step k + j to the angle first + (k + j) * DELTA_ANGLE, with the ids left by step k + j - 1 |
| RayCasting.ColumnsAreCast | raycasting.py:40-112 | column j of a frame is the body applied to player.angle - HALF_FOV + 0.0001 + j * DELTA_ANGLE and to the ids ray j - 1 left (1, 1 for ray 0) |
| RayCasting.RayCast | raycasting.py:38-112 | the frame succeeds exactly when every column does; it has NUM_RAYS results, result k being the tuple of column k (whose angle and ids `ColumnsAreCast` fixes), each with its offset in [0, 1] |
| RayCasting.SweepTotal | raycasting.py:46-112 | a loop whose body succeeds at every remaining angle, whatever ids it is given, succeeds |
| RayCasting.ColumnsTotal | raycasting.py:38-112 | under the conditions of RayCastTotal every column of the frame succeeds |
| RayCasting.FrameColumnTotal | raycasting.py:38-112 | under the same conditions column k has a non-negative distance and a positive height |
| RayCasting.RayCastTotal | raycasting.py:38-112 | a viewer at non-negative coordinates in tile `(int(x), int(y))`, with no axis-aligned ray and non-negative fisheye factors, gets a frame with no exception, non-negative distances and positive heights |
| RayCasting.OpenMapKeepsIds | raycasting.py:40-96 | in a map with no walls the ids passed from ray to ray stay (1, 1) and each ray reports id 1 |
| RayCasting.OpenMapKeepsInitialTexture | raycasting.py:40-96 | in a map with no walls every ray of the frame reports wall id 1 |
| RayCasting.MakeStrip | raycasting.py:19-35 | a strip keeps the distance and id and sits at x = ray * SCALE, SCALE wide, cut from column offset * (TEXTURE_SIZE - SCALE), which for an offset in [0, 1] lies in [0, TEXTURE_SIZE - SCALE]; a wall lower than the screen is cut at full texture height, scaled to its height and placed at y = HALF_HEIGHT - proj_height // 2, centred on the horizon to within a pixel; a taller wall fills the screen and is cut to h = TEXTURE_SIZE * HEIGHT / proj_height rows starting at row HALF_TEXTURE_SIZE - h // 2, at most TEXTURE_SIZE rows starting inside the texture |
| RayCasting.CutStart | raycasting.py:22 | the cut starts at column offset * (TEXTURE_SIZE - SCALE); for an offset in [0, 1] that lies in [0, TEXTURE_SIZE - SCALE] |
| RayCasting.CutStartFits | raycasting.py:22 | a fraction in [0, 1] of a non-negative span lies in [0, span] |
| RayCasting.CentredOnHorizon | raycasting.py:25 | the strip of a wall lower than the screen starts at or below the top and its middle is within one pixel below HALF_HEIGHT |
| RayCasting.HalfAtMost | raycasting.py:25 | the floored half of a value at most n is at most n // 2 |
| RayCasting.CropInsideTexture | raycasting.py:27-31 | the rows cut from a wall taller than the screen start inside the texture, number at most TEXTURE_SIZE and end less than one row past it |
| RayCasting.CropWithinTexture | raycasting.py:27 | TEXTURE_SIZE * HEIGHT / proj_height lies in (0, TEXTURE_SIZE] when proj_height >= HEIGHT |
| RayCasting.StripsFrom | raycasting.py:14-35 | from result k on there is a strip per result, built by MakeStrip, exactly when every wall id has a texture; a failure names an id without a texture |
| RayCasting.StripsFromReportsFirstMissing | raycasting.py:16-28 | the KeyError names the first result, from k on, whose id has no texture |
| RayCasting.ObjectsToRender | raycasting.py:14-35 | the strips succeed exactly when every id has a texture; strip i is `MakeStrip` of result i, so it has that result's distance, texture and cut, at x = i * SCALE |
| RayCasting.ObjectsToRenderReportsFirstMissing | raycasting.py:16-28 | the frame's KeyError names the leftmost id without a texture |
| RayCasting.FrameStripsInTexture | raycasting.py:14-35 | every strip of a cast frame cuts its column from [0, TEXTURE_SIZE - SCALE], and the strips lie side by side SCALE apart |
| ObjectRenderer.Insert | object_renderer.py:64 | inserting into a far-to-near sequence keeps it far to near and adds exactly the inserted strip |
| ObjectRenderer.SortFarToNear | object_renderer.py:64 | the sorted strips are a permutation of the input with non-increasing depth |
| ObjectRenderer.WithDepthAppend | object_renderer.py:64 | picking the strips of one depth distributes over concatenation |
| ObjectRenderer.InsertStable | object_renderer.py:64 | inserting keeps the inserted strip ahead of the strips of equal depth it came before |
| ObjectRenderer.SortStable | object_renderer.py:64 | within every depth the sorted strips keep their input order |
| ObjectRenderer.RenderGameObjects | object_renderer.py:63-66 | strips are drawn farthest first, none added or dropped, equal depths in input order |
| ObjectRenderer.SameDepthsSameEmptiness | object_renderer.py:64 | sequences that agree on every depth are empty together |
| ObjectRenderer.DeepestFirst | object_renderer.py:64 | a far-to-near sequence starts with a strip at least as deep as any depth in it |
| ObjectRenderer.SameHead | object_renderer.py:64 | two far-to-near sequences that agree on every depth start with the same strip |
| ObjectRenderer.TailFarToNear | object_renderer.py:64 | dropping the first strip keeps a sequence far to near |
| ObjectRenderer.TailsAgree | object_renderer.py:64 | sequences with the same first strip that agree on every depth have tails that agree on every depth |
| ObjectRenderer.FarToNearUnique | object_renderer.py:64 | two far-to-near sequences that agree on every depth are equal |
| ObjectRenderer.SortIsTheStableOrder | object_renderer.py:64 | any far-to-near sequence that keeps the input order within every depth is the sort's output, so the stable sort is the only correct draw order |
| ObjectRenderer.ScrollSky | object_renderer.py:52 | the new sky offset lies in [0, WIDTH) and differs from offset + 4.5 * rel by a whole multiple of WIDTH |
| ObjectRenderer.DrawBackground | object_renderer.py:51-61 | the new offset is (old offset + 4.5 * rel) % WIDTH, in [0, WIDTH); the first sky copy is drawn at -offset and the second abuts it, so the first starts at or left of 0 and the second ends at or right of WIDTH; the floor is the rectangle (0, HALF_HEIGHT, WIDTH, HEIGHT) |
| ObjectRenderer.SkyCoversScreen | object_renderer.py:52-54 | every screen column in [0, WIDTH) is covered by one of the two sky copies |
| ObjectRenderer.ScrollSkyAccumulates | object_renderer.py:52 | wrapping the offset every frame gives the same offset as wrapping the sum of all turns once |
| ObjectRenderer.DigitChar | object_renderer.py:36 | the character of a digit below ten is the decimal digit with that value |
| ObjectRenderer.DecimalDigits | object_renderer.py:36 | `str(n)` of a non-negative n is a non-empty run of decimal digits with no leading zero |
| ObjectRenderer.PyStr | object_renderer.py:36 | `str(n)` is the digits of n for n >= 0, and '-' followed by the digits of -n for n < 0 |
| ObjectRenderer.DecimalRoundTrip | object_renderer.py:36 | reading back the digits of `str(n)` gives n |
| ObjectRenderer.PlaceDigits | object_renderer.py:43-44 | every character from position i on has a digit image exactly when the blits succeed; character j goes at center_x + j * 30; a failure names a key with no image |
| ObjectRenderer.DigitsHaveImages | object_renderer.py:16 | every character of `str(health)` has a digit image exactly when health >= 0 |
| ObjectRenderer.DrawPlayerHealth | object_renderer.py:35-46 | the counter draws exactly when health >= 0, one blit per character plus the icon; a negative health raises KeyError on '-' |
| ObjectRenderer.HealthPlacements | object_renderer.py:37-46 | digit j goes at center_x + j * 30 and the icon at center_x - len * 30, all on row height - 50 |
| ObjectRenderer.HealthSpellsValue | object_renderer.py:36-44 | the digit images, read left to right, spell the health |
| ObjectRenderer.HealthRowAbuts | object_renderer.py:41-44 | all blits sit 50 pixels above the bottom edge and the digits are side by side, 30 apart |
| ObjectRenderer.HealthCentred | object_renderer.py:37-38 | the total_width block starting at the first digit is centred on the screen to within one pixel |
| ObjectRenderer.HealthIconLeft | object_renderer.py:46 | the icon is left of the digits without overlap and touches the first digit exactly when the health has one digit |

## Left out

- Drawing itself is left out: pygame surfaces, `subsurface`, `transform.scale` and `blit`. Strips and counter blits are described by the rectangles and positions the code computes.
- pygame's conversion of float rectangles to whole pixels is left out. The crop of a wall taller than the screen is stated to end less than one row past the texture, not at most at its last row.
- The program calls `math.sin` and `math.cos`; the model takes them as parameters. Floating-point rounding is not modelled: all arithmetic is exact over the reals. So the IEEE float case where `x % WIDTH` can round up to exactly WIDTH is not covered.
- The minimap ray line (raycasting.py:99-101) is left out. It only draws and does not affect any result.
- Loading textures and digit images, `win`, `game_over`, `player_damage`, `draw_crosshair`, `pg.time.delay`, and the `update`/`draw` call order are left out. They are asset loading, I/O or orchestration.
- The texture table is the set of wall ids that have a texture, and the digit table is the set of its keys. The images themselves are not modelled.
- The digit images and the icon are 30 pixels wide, because `get_texture` scales every digit image to `digit_size`. So `self.digits['10'].get_width()` is modelled as the constant 30.
- settings.py is not part of this model. Its constants are fields of `Settings.Config`, restricted only by `Config.Valid`.
- ObjectRenderer.DrawPlayerHealth: takes `player.health` as an int. A float health would print as, for example, "100.0" and raise KeyError on '.'; the player module is not part of this model, so the health is assumed to be an int.
- The player's position and map tile, the map and `player.rel` are inputs. The player and map modules are not part of this model.
- A ValueError raised inside a pygame call is not modelled. `transform.scale` at raycasting.py:24 rejects a negative size, and proj_height is negative whenever the distance is below -0.0001; the model then returns a strip with a negative height instead of failing.
- RayCasting.RayCastTotal: states success only for a viewer at non-negative coordinates in tile `(int(x), int(y))` with no axis-aligned ray. Outside that the code may divide by zero, which the model reports as an error.
- RayCasting.StripsFrom: its own contract says only that a failure names a missing id; which id is reported is stated separately by `StripsFromReportsFirstMissing`.

=== FILE: object_renderer.dfy ===
/** The compositor (object_renderer.py): the scrolling sky and the floor,
    the far-to-near drawing order of the wall strips, and the layout of the
    health counter at the bottom of the screen. */
module ObjectRenderer {
  import opened Results
  import opened PyMath
  import opened Settings
  import RayCasting

  type Strip = RayCasting.Strip
  type Rect = RayCasting.Rect

  // ---------------------------------------------------------------------
  // Painter's order (render_game_objects)

  /** Every strip is at least as deep as every strip drawn after it. */
  predicate FarToNear(s: seq<Strip>) {
    forall i, j :: 0 <= i < j < |s| ==> s[i].depth >= s[j].depth
  }

  /** `[x]` when `x` has depth `d`, otherwise nothing. */
  function KeepIf(x: Strip, d: real): seq<Strip> {
    if x.depth == d then [x] else []
  }

  /** The strips of `s` whose depth is `d`, in their order in `s`. */
  function WithDepth(s: seq<Strip>, d: real): seq<Strip>
    decreases |s|
  {
    if s == [] then [] else KeepIf(s[0], d) + WithDepth(s[1..], d)
  }

  /** Insert `x`, which came before every strip of `t` in the input, in
      front of the first strip of `t` that is not deeper than it. */
  function Insert(x: Strip, t: seq<Strip>): (r: seq<Strip>)
    requires FarToNear(t)
    decreases |t|
    ensures FarToNear(r)
    ensures multiset(r) == multiset(t) + multiset{x}
    ensures |r| == |t| + 1
    ensures r[0] == x || (t != [] && r[0] == t[0])
  {
    if t == [] || t[0].depth <= x.depth then
      ConsFarToNear(x, t);
      [x] + t
    else
      var rest := Insert(x, t[1..]);
      ConsFarToNear(t[0], rest);
      assert t == [t[0]] + t[1..];
      ConsMultiset(t[0], t[1..]);
      ConsMultiset(t[0], rest);
      [t[0]] + rest
  }

  /** A strip at least as deep as the first of a far-to-near sequence can
      be drawn before all of it. */
  lemma ConsFarToNear(y: Strip, s: seq<Strip>)
    requires FarToNear(s)
    requires s != [] ==> y.depth >= s[0].depth
    ensures FarToNear([y] + s)
  {
    forall i, j | 0 <= i < j < |s| + 1
      ensures ([y] + s)[i].depth >= ([y] + s)[j].depth
    {
      if i == 0 && j > 1 {
        assert s[0].depth >= s[j - 1].depth;
      }
    }
  }

  /** The multiset of a non-empty sequence is its head plus its tail. */
  lemma ConsMultiset(y: Strip, s: seq<Strip>)
    ensures multiset([y] + s) == multiset{y} + multiset(s)
  {
  }

  /** `sorted(objects_to_render, key=lambda t: t[0], reverse=True)`: a
      stable insertion sort, deepest strip first. */
  function SortFarToNear(s: seq<Strip>): (r: seq<Strip>)
    decreases |s|
    ensures FarToNear(r)
    ensures multiset(r) == multiset(s)
    ensures |r| == |s|
  {
    if s == [] then
      []
    else
      assert s == [s[0]] + s[1..];
      Insert(s[0], SortFarToNear(s[1..]))
  }

  /** Filtering distributes over concatenation. */
  lemma {:induction false} WithDepthAppend(a: seq<Strip>, b: seq<Strip>, d: real)
    decreases |a|
    ensures WithDepth(a + b, d) == WithDepth(a, d) + WithDepth(b, d)
  {
    if a != [] {
      assert (a + b)[1..] == a[1..] + b;
      WithDepthAppend(a[1..], b, d);
    } else {
      assert a + b == b;
    }
  }

  /** Filtering a sequence with a given head. */
  lemma WithDepthCons(y: Strip, s: seq<Strip>, d: real)
    ensures WithDepth([y] + s, d) == KeepIf(y, d) + WithDepth(s, d)
  {
    assert ([y] + s)[1..] == s;
  }

  /** Inserting keeps, within every depth, the inserted strip in front of
      the strips it came before. */
  lemma {:induction false} InsertStable(x: Strip, t: seq<Strip>, d: real)
    requires FarToNear(t)
    decreases |t|
    ensures WithDepth(Insert(x, t), d) == WithDepth([x] + t, d)
  {
    if t != [] && t[0].depth > x.depth {
      var rest := Insert(x, t[1..]);
      InsertStable(x, t[1..], d);
      WithDepthCons(t[0], rest, d);
      WithDepthCons(x, t[1..], d);
      WithDepthCons(x, t, d);
      SwapKeep(x, t[0], d, WithDepth(t[1..], d));
    }
  }

  /** Filtering two strips of different depths in either order gives the
      same result. */
  lemma SwapKeep(x: Strip, y: Strip, d: real, s: seq<Strip>)
    requires x.depth != y.depth
    ensures KeepIf(y, d) + (KeepIf(x, d) + s) == KeepIf(x, d) + (KeepIf(y, d) + s)
  {
  }

  /** The sort is stable: within every depth the strips keep their
      left-to-right order. */
  lemma {:induction false} SortStable(s: seq<Strip>, d: real)
    decreases |s|
    ensures WithDepth(SortFarToNear(s), d) == WithDepth(s, d)
  {
    if s != [] {
      SortStable(s[1..], d);
      InsertStable(s[0], SortFarToNear(s[1..]), d);
      WithDepthAppend([s[0]], SortFarToNear(s[1..]), d);
      assert s == [s[0]] + s[1..];
      WithDepthAppend([s[0]], s[1..], d);
    }
  }

  /** Sequences that agree on every depth are empty together. */
  lemma SameDepthsSameEmptiness(r: seq<Strip>, q: seq<Strip>)
    requires forall d :: WithDepth(r, d) == WithDepth(q, d)
    ensures r == [] <==> q == []
  {
    if r != [] {
      assert WithDepth(r, r[0].depth) != [];
    }
    if q != [] {
      assert WithDepth(q, q[0].depth) != [];
    }
  }

  /** A far-to-near order is determined by its per-depth orders: two such
      sequences that agree on every depth are equal. */
  lemma {:induction false} FarToNearUnique(r: seq<Strip>, q: seq<Strip>)
    requires FarToNear(r) && FarToNear(q)
    requires forall d :: WithDepth(r, d) == WithDepth(q, d)
    decreases |r| + |q|
    ensures r == q
  {
    SameDepthsSameEmptiness(r, q);
    if r != [] {
      SameHead(r, q);
      TailsAgree(r, q);
      TailFarToNear(r);
      TailFarToNear(q);
      FarToNearUnique(r[1..], q[1..]);
      assert r == [r[0]] + r[1..];
      assert q == [q[0]] + q[1..];
    }
  }

  /** Two far-to-near sequences that agree on every depth start with the
      same strip: both start with the first strip of the greatest depth. */
  lemma SameHead(r: seq<Strip>, q: seq<Strip>)
    requires FarToNear(r) && FarToNear(q)
    requires r != [] && q != []
    requires forall d :: WithDepth(r, d) == WithDepth(q, d)
    ensures r[0] == q[0]
  {
    var dr := r[0].depth;
    var dq := q[0].depth;
    assert WithDepth(r, dr) == [r[0]] + WithDepth(r[1..], dr);
    assert WithDepth(q, dq) == [q[0]] + WithDepth(q[1..], dq);
    assert WithDepth(q, dr) != [] && WithDepth(r, dq) != [];
    DeepestFirst(q, dr);
    DeepestFirst(r, dq);
    assert dr == dq;
    assert r[0] == WithDepth(r, dr)[0] == WithDepth(q, dr)[0] == q[0];
  }

  /** The first strip of a far-to-near sequence is at least as deep as any
      depth that occurs in it. */
  lemma {:induction false} DeepestFirst(s: seq<Strip>, d: real)
    requires FarToNear(s)
    requires WithDepth(s, d) != []
    decreases |s|
    ensures s[0].depth >= d
  {
    if s[0].depth != d {
      TailFarToNear(s);
      DeepestFirst(s[1..], d);
      assert s[1..][0] == s[1];
    }
  }

  /** The tail of a far-to-near sequence is far to near. */
  lemma TailFarToNear(s: seq<Strip>)
    requires FarToNear(s) && s != []
    ensures FarToNear(s[1..])
  {
    forall i, j | 0 <= i < j < |s| - 1
      ensures s[1..][i].depth >= s[1..][j].depth
    {
      assert s[1..][i] == s[i + 1] && s[1..][j] == s[j + 1];
    }
  }

  /** Sequences with the same head that agree on every depth have tails
      that agree on every depth. */
  lemma TailsAgree(r: seq<Strip>, q: seq<Strip>)
    requires r != [] && q != [] && r[0] == q[0]
    requires forall d :: WithDepth(r, d) == WithDepth(q, d)
    ensures forall d :: WithDepth(r[1..], d) == WithDepth(q[1..], d)
  {
    forall d
      ensures WithDepth(r[1..], d) == WithDepth(q[1..], d)
    {
      assert WithDepth(r, d) == WithDepth(q, d);
      assert WithDepth(r, d) == KeepIf(r[0], d) + WithDepth(r[1..], d);
      assert WithDepth(q, d) == KeepIf(q[0], d) + WithDepth(q[1..], d);
      assert WithDepth(r[1..], d) == WithDepth(r, d)[|KeepIf(r[0], d)|..];
    }
  }

  /** The far-to-near stable order is unique: any sequence that is drawn
      far to near and keeps the input order within every depth is the one
      the sort returns. */
  lemma SortIsTheStableOrder(s: seq<Strip>, r: seq<Strip>)
    requires FarToNear(r)
    requires forall d :: WithDepth(r, d) == WithDepth(s, d)
    ensures r == SortFarToNear(s)
  {
    forall d
      ensures WithDepth(r, d) == WithDepth(SortFarToNear(s), d)
    {
      SortStable(s, d);
    }
    FarToNearUnique(r, SortFarToNear(s));
  }

  /** `render_game_objects`: the strips in the order they are blitted.
      They are drawn farthest first, none is added or dropped, and strips
      of equal depth keep their left-to-right order. */
  function RenderGameObjects(objects: seq<Strip>): (drawn: seq<Strip>)
    ensures FarToNear(drawn)
    ensures multiset(drawn) == multiset(objects)
    ensures forall d :: WithDepth(drawn, d) == WithDepth(objects, d)
  {
    var drawn := SortFarToNear(objects);
    assert forall d :: WithDepth(drawn, d) == WithDepth(objects, d) by {
      forall d
        ensures WithDepth(drawn, d) == WithDepth(objects, d)
      {
        SortStable(objects, d);
      }
    }
    drawn
  }

  // ---------------------------------------------------------------------
  // Sky and floor (draw_background)

  /** Pixels the sky scrolls per unit of the player's turning. */
  const SkySpeed: real := 4.5

  /** What draw_background puts on the screen: the new scroll offset, the
      x positions of the two copies of the sky image, and the floor
      rectangle. */
  datatype Background = Background(skyOffset: real, skyLeft: real, skyRight: real, floor: Rect)

  /** The sky offset after one frame in which the player turned by `rel`. */
  function ScrollSky(width: int, skyOffset: real, rel: real): (r: real)
    requires width > 0
    ensures 0.0 <= r < width as real
    ensures ((skyOffset + SkySpeed * rel - r) / width as real).Floor as real
            == (skyOffset + SkySpeed * rel - r) / width as real
  {
    FloorMod(skyOffset + SkySpeed * rel, width as real)
  }

  /** `draw_background`: scroll the sky, draw it at -offset and at
      -offset + WIDTH, then fill the floor below the horizon. */
  function DrawBackground(cfg: Config, skyOffset: real, rel: real): (b: Background)
    requires cfg.Valid()
    ensures 0.0 <= b.skyOffset < cfg.width as real
    ensures b.skyLeft + cfg.width as real == b.skyRight
    ensures b.skyLeft <= 0.0 && cfg.width as real <= b.skyRight + cfg.width as real
    ensures b.floor.top == cfg.halfHeight as real
    ensures b.skyOffset == FloorMod(skyOffset + SkySpeed * rel, cfg.width as real)
    ensures b.skyLeft == -b.skyOffset
    ensures b.floor == RayCasting.Rect(0.0, cfg.halfHeight as real, cfg.width as real, cfg.height as real)
  {
    var offset := ScrollSky(cfg.width, skyOffset, rel);
    Background(offset, -offset, -offset + cfg.width as real,
               RayCasting.Rect(0.0, cfg.halfHeight as real, cfg.width as real, cfg.height as real))
  }

  /** Screen column `px` is covered by one of the two sky copies, each
      WIDTH pixels wide. */
  predicate SkyCovers(b: Background, width: int, px: real) {
    (b.skyLeft <= px < b.skyLeft + width as real) || (b.skyRight <= px < b.skyRight + width as real)
  }

  /** The two copies of the sky abut and together cover every screen
      column, whatever the previous offset and the turn. */
  lemma SkyCoversScreen(cfg: Config, skyOffset: real, rel: real, px: real)
    requires cfg.Valid()
    requires 0.0 <= px < cfg.width as real
    ensures SkyCovers(DrawBackground(cfg, skyOffset, rel), cfg.width, px)
  {
  }

  /** The total turn over a sequence of frames. */
  function TotalTurn(rels: seq<real>): real
    decreases |rels|
  {
    if rels == [] then 0.0 else TotalTurn(rels[..|rels| - 1]) + rels[|rels| - 1]
  }

  /** The sky offset after a sequence of frames. */
  function ScrollSkyFrames(width: int, skyOffset: real, rels: seq<real>): real
    requires width > 0
    decreases |rels|
  {
    if rels == [] then skyOffset
    else ScrollSky(width, ScrollSkyFrames(width, skyOffset, rels[..|rels| - 1]), rels[|rels| - 1])
  }

  /** Wrapping the offset every frame is the same as wrapping the sum of all
      turns once: the accumulator loses nothing but whole screen widths. */
  lemma {:induction false} ScrollSkyAccumulates(width: int, skyOffset: real, rels: seq<real>)
    requires width > 0
    requires |rels| > 0
    decreases |rels|
    ensures ScrollSkyFrames(width, skyOffset, rels) == FloorMod(skyOffset + SkySpeed * TotalTurn(rels), width as real)
  {
    var w := width as real;
    var init := rels[..|rels| - 1];
    var last := rels[|rels| - 1];
    var prev := ScrollSkyFrames(width, skyOffset, init);
    if init != [] {
      ScrollSkyAccumulates(width, skyOffset, init);
      var a := skyOffset + SkySpeed * TotalTurn(init);
      var k := ((a - prev) / w).Floor;
      assert a - prev == k as real * w;
      assert a + SkySpeed * last == (prev + SkySpeed * last) + k as real * w;
      FloorModShift(prev + SkySpeed * last, w, k);
    }
  }

  // ---------------------------------------------------------------------
  // Health counter (draw_player_health)

  /** Side of a digit image in pixels (`self.digit_size`). */
  const DigitSize: int := 30

  /** Gap between the counter and the bottom of the screen. */
  const BottomMargin: int := 20

  /** The images loaded as digits: "0" to "9", and "10", the health icon. */
  const DigitKeys: set<string> := {"0", "1", "2", "3", "4", "5", "6", "7", "8", "9", "10"}

  /** Key of the health icon; its image is DigitSize wide like the digits. */
  const IconKey: string := "10"

  /** One blit of a digit image: which image and where its top-left goes. */
  datatype Placement = Placement(key: string, x: int, y: int)

  /** The decimal digit of a value below ten. */
  function DigitChar(d: int): (c: char)
    requires 0 <= d < 10
    ensures '0' <= c <= '9' && c as int - '0' as int == d
  {
    ('0' as int + d) as char
  }

  /** Python `str(n)` for a non-negative integer: its decimal digits, most
      significant first, without leading zeros. */
  function DecimalDigits(n: nat): (s: string)
    decreases n
    ensures |s| >= 1
    ensures forall i :: 0 <= i < |s| ==> '0' <= s[i] <= '9'
    ensures |s| > 1 ==> s[0] != '0'
  {
    if n < 10 then [DigitChar(n)] else DecimalDigits(n / 10) + [DigitChar(n % 10)]
  }

  /** Python `str(n)` for any integer: a minus sign before a negative one. */
  function PyStr(n: int): (s: string)
    ensures n >= 0 ==> s == DecimalDigits(n)
    ensures n < 0 ==> |s| > 1 && s[0] == '-' && s[1..] == DecimalDigits(-n)
  {
    if n < 0 then "-" + DecimalDigits(-n) else DecimalDigits(n)
  }

  /** The value of a string of decimal digits. */
  function DecimalValue(s: string): int
    requires forall i :: 0 <= i < |s| ==> '0' <= s[i] <= '9'
    decreases |s|
  {
    if s == [] then 0 else DecimalValue(s[..|s| - 1]) * 10 + (s[|s| - 1] as int - '0' as int)
  }

  /** Reading back the digits written by `str` gives the number. */
  lemma {:induction false} DecimalRoundTrip(n: nat)
    decreases n
    ensures DecimalValue(DecimalDigits(n)) == n
  {
    var s := DecimalDigits(n);
    if n >= 10 {
      DecimalRoundTrip(n / 10);
      assert s[..|s| - 1] == DecimalDigits(n / 10);
    }
  }

  /** The blits of the characters of `s` from position `i` on, placed
      DigitSize apart from `left`; a character without a digit image raises
      KeyError. */
  function PlaceDigits(s: string, left: int, y: int, i: nat): (r: Result<seq<Placement>>)
    requires i <= |s|
    decreases |s| - i
    ensures r.Ok? <==> forall j :: i <= j < |s| ==> [s[j]] in DigitKeys
    ensures r.Ok? ==> |r.value| == |s| - i
    ensures r.Ok? ==> forall j :: 0 <= j < |r.value| ==>
      r.value[j] == Placement([s[i + j]], left + (i + j) * DigitSize, y)
    ensures r.Err? ==> r.error.MissingDigit? && r.error.key !in DigitKeys
  {
    if i == |s| then
      Ok([])
    else if [s[i]] !in DigitKeys then
      Err(MissingDigit([s[i]]))
    else
      var rest :- PlaceDigits(s, left, y, i + 1);
      Ok([Placement([s[i]], left + i * DigitSize, y)] + rest)
  }

  /** `draw_player_health`: the digits of the health, left to right, then
      the health icon, all on one row DigitSize + 20 pixels above the
      bottom edge. A negative health has a '-' without an image, which
      raises KeyError before anything after it is drawn. */
  function DrawPlayerHealth(health: int, screenWidth: int, screenHeight: int): (r: Result<seq<Placement>>)
    ensures r.Ok? <==> health >= 0
    ensures r.Err? ==> r.error == MissingDigit("-")
    ensures r.Ok? ==> |r.value| == |PyStr(health)| + 1
  {
    var text := PyStr(health);
    var totalWidth := |text| * DigitSize + DigitSize;
    var centerX := (screenWidth - totalWidth) / 2;
    var y := screenHeight - DigitSize - BottomMargin;
    DigitsHaveImages(health);
    var digits :- PlaceDigits(text, centerX, y, 0);
    Ok(digits + [Placement(IconKey, centerX - |text| * DigitSize, y)])
  }

  /** Every character of `str(health)` has an image exactly when the
      health is not negative. */
  lemma DigitsHaveImages(health: int)
    ensures (forall j :: 0 <= j < |PyStr(health)| ==> [PyStr(health)[j]] in DigitKeys) <==> health >= 0
  {
    var s := PyStr(health);
    if health < 0 {
      assert ['-'] !in DigitKeys;
      assert [s[0]] !in DigitKeys;
    } else {
      forall j | 0 <= j < |s|
        ensures [s[j]] in DigitKeys
      {
        var c := s[j];
        assert '0' <= c <= '9';
        assert c == '0' || c == '1' || c == '2' || c == '3' || c == '4'
            || c == '5' || c == '6' || c == '7' || c == '8' || c == '9';
      }
    }
  }

  /** Where each blit of the counter goes, in terms of the left edge that
      total_width centres. */
  lemma HealthPlacements(health: int, screenWidth: int, screenHeight: int)
    requires health >= 0
    ensures var r := DrawPlayerHealth(health, screenWidth, screenHeight).value;
      var s := DecimalDigits(health);
      var left := (screenWidth - (|s| * DigitSize + DigitSize)) / 2;
      var y := screenHeight - DigitSize - BottomMargin;
      && |r| == |s| + 1
      && (forall j :: 0 <= j < |s| ==> r[j] == Placement([s[j]], left + j * DigitSize, y))
      && r[|s|] == Placement(IconKey, left - |s| * DigitSize, y)
  {
    var s := DecimalDigits(health);
    assert PyStr(health) == s;
    DigitsHaveImages(health);
    var left := (screenWidth - (|s| * DigitSize + DigitSize)) / 2;
    var y := screenHeight - DigitSize - BottomMargin;
    var placed := PlaceDigits(s, left, y, 0);
    assert placed.Ok?;
    var digits := placed.value;
    assert DrawPlayerHealth(health, screenWidth, screenHeight).value
        == digits + [Placement(IconKey, left - |s| * DigitSize, y)];
  }

  /** The digit images drawn, read left to right, spell the health. */
  lemma HealthSpellsValue(health: int, screenWidth: int, screenHeight: int)
    requires health >= 0
    ensures var r := DrawPlayerHealth(health, screenWidth, screenHeight).value;
      var n := |r| - 1;
      && (forall j :: 0 <= j < n ==> |r[j].key| == 1 && '0' <= r[j].key[0] <= '9')
      && DecimalValue(seq(n, j requires 0 <= j < n => r[j].key[0])) == health
  {
    HealthPlacements(health, screenWidth, screenHeight);
    var r := DrawPlayerHealth(health, screenWidth, screenHeight).value;
    var s := DecimalDigits(health);
    assert seq(|s|, j requires 0 <= j < |s| => r[j].key[0]) == s;
    DecimalRoundTrip(health);
  }

  /** All blits share the row DigitSize + 20 above the bottom edge and the
      digits sit side by side, DigitSize apart. */
  lemma HealthRowAbuts(health: int, screenWidth: int, screenHeight: int)
    requires health >= 0
    ensures var r := DrawPlayerHealth(health, screenWidth, screenHeight).value;
      && (forall j :: 0 <= j < |r| ==> r[j].y + DigitSize + BottomMargin == screenHeight)
      && (forall j :: 0 < j < |r| - 1 ==> r[j].x == r[j - 1].x + DigitSize)
  {
    HealthPlacements(health, screenWidth, screenHeight);
  }

  /** The block of total_width pixels (the digits plus one icon width)
      starting at the first digit is centred on the screen to within one
      pixel. */
  lemma HealthCentred(health: int, screenWidth: int, screenHeight: int)
    requires health >= 0
    ensures var r := DrawPlayerHealth(health, screenWidth, screenHeight).value;
      var totalWidth := |r| * DigitSize;
      0 <= screenWidth - totalWidth - 2 * r[0].x <= 1
  {
    HealthPlacements(health, screenWidth, screenHeight);
  }

  /** The icon is drawn left of the digits without overlapping them, and
      touches the first digit exactly when the health has one digit; with
      more digits a gap opens, because the icon is offset by the full width
      of the digits although total_width reserves its space on the right. */
  lemma HealthIconLeft(health: int, screenWidth: int, screenHeight: int)
    requires health >= 0
    ensures var r := DrawPlayerHealth(health, screenWidth, screenHeight).value;
      var icon := r[|r| - 1];
      && icon.key == IconKey
      && icon.x + DigitSize <= r[0].x
      && (icon.x + DigitSize == r[0].x <==> health < 10)
  {
    HealthPlacements(health, screenWidth, screenHeight);
    var s := DecimalDigits(health);
    assert |s| == 1 <==> health < 10 by {
      if health >= 10 {
        assert DecimalDigits(health) == DecimalDigits(health / 10) + [DigitChar(health % 10)];
      }
    }
  }
}

=== FILE: pymath.dfy ===
/** The parts of Python's float semantics that the renderer depends on,
    stated over mathematical reals. */
module PyMath {

  /** Python `int(x)` on a float: truncation toward zero, not flooring. */
  function Trunc(x: real): (n: int)
    ensures 0.0 <= x ==> n as real <= x < n as real + 1.0
    ensures x < 0.0 ==> n as real - 1.0 < x <= n as real
  {
    if x >= 0.0 then x.Floor else -((-x).Floor)
  }

  /** Python `a % m` on floats with a positive modulus: the result has the
      sign of the modulus and differs from `a` by a whole multiple of it. */
  function FloorMod(a: real, m: real): (r: real)
    requires m > 0.0
    ensures 0.0 <= r < m
    ensures ((a - r) / m).Floor as real == (a - r) / m
  {
    var n := (a / m).Floor;
    FloorBracket(a, m);
    WholeMultiple(m, n);
    a - m * n as real
  }

  /** Python `x %= 1` on a float: the fractional part toward minus infinity. */
  function Frac(x: real): (f: real)
    ensures 0.0 <= f < 1.0
    ensures (x - f).Floor as real == x - f
  {
    FloorMod(x, 1.0)
  }

  /** Python `a // b` on floats with a positive divisor: a whole-valued float. */
  function FloorDiv(a: real, b: real): (q: real)
    requires b > 0.0
    ensures q.Floor as real == q
    ensures q <= a / b < q + 1.0
  {
    (a / b).Floor as real
  }

  /** `FloorMod` is the only value in [0, m) that differs from `a` by a
      whole multiple of `m`. */
  lemma FloorModUnique(a: real, m: real, r: real, n: int)
    requires m > 0.0
    requires 0.0 <= r < m
    requires a == r + n as real * m
    ensures FloorMod(a, m) == r
  {
    var q := (a / m).Floor;
    assert a / m == r / m + n as real;
    assert 0.0 <= r / m < 1.0 by {
      assert (r / m) * m == r;
      ScaleBounds(0.0, r / m, 1.0, m);
      assert (r / m) * m < 1.0 * m;
    }
    assert q == n;
  }

  /** Multiplying by a positive factor keeps a half-open bracket. */
  lemma ScaleBounds(lo: real, x: real, hi: real, m: real)
    requires m > 0.0
    ensures lo <= x <==> lo * m <= x * m
    ensures x < hi <==> x * m < hi * m
  {
    if x * m < hi * m {
      assert (hi - x) * m > 0.0;
    }
    if lo * m <= x * m {
      assert (x - lo) * m >= 0.0;
    }
  }

  /** The floored quotient brackets the dividend between consecutive multiples. */
  lemma FloorBracket(a: real, m: real)
    requires m > 0.0
    ensures (a / m).Floor as real * m <= a < ((a / m).Floor as real + 1.0) * m
  {
    var x := a / m;
    var q := x.Floor as real;
    assert x < q + 1.0;
    ScaleBounds(q, x, q + 1.0, m);
    assert x * m < (q + 1.0) * m;
    assert x * m == a;
    assert a < (q + 1.0) * m;
  }

  /** Shifting the dividend by whole multiples of the modulus does not
      change the remainder. */
  lemma FloorModShift(a: real, m: real, k: int)
    requires m > 0.0
    ensures FloorMod(a + k as real * m, m) == FloorMod(a, m)
  {
    var r := FloorMod(a, m);
    var q := (a - r) / m;
    var n := q.Floor;
    assert a - r == q * m;
    assert a - r == n as real * m;
    assert a + k as real * m == r + (n + k) as real * m;
    FloorModUnique(a + k as real * m, m, r, n + k);
  }

  /** A whole multiple of `m`, divided by `m`, is that whole number. */
  lemma WholeMultiple(m: real, n: int)
    requires m > 0.0
    ensures (m * n as real) / m == n as real
    ensures (n as real).Floor == n
    ensures (n as real + 1.0) * m == n as real * m + m
  {
  }
}

=== FILE: raycasting.dfy ===
/** The per-frame ray caster (raycasting.py): for every screen column a ray
    is walked across the tile grid along horizontal and along vertical grid
    lines, the nearer wall hit is kept, its distance is corrected for the
    fisheye effect and turned into a projected wall height, and every
    result is then turned into a textured strip to draw. */
module RayCasting {
  import opened Results
  import opened PyMath
  import opened Settings

  /** world_map: the wall id of every occupied tile; a missing key is floor. */
  type WorldMap = map<(int, int), int>

  /** Nudge added to the first ray angle and to the depth before dividing. */
  const Epsilon: real := 0.0001

  /** How far below a grid line a downward horizontal walk starts. */
  const BelowLine: real := 0.000001

  /** The tile holding a point, computed with Python's truncating `int()`. */
  function Tile(x: real, y: real): (int, int) {
    (Trunc(x), Trunc(y))
  }

  /** The viewer: position in grid units, the tile it stands in, heading. */
  datatype Pose = Pose(x: real, y: real, mapX: int, mapY: int, angle: real)

  /** A point visited by a grid walk: its coordinates, its distance along
      the ray, and the increments of one step to the next grid line. */
  datatype Probe = Probe(x: real, y: real, depth: real, dx: real, dy: real, dd: real) {

    /** One step of the walk: `x += dx`, `y += dy`, `depth += delta_depth`. */
    function Step(): Probe {
      Probe(x + dx, y + dy, depth + dd, dx, dy, dd)
    }

    /** Where the walk is after `k` steps. */
    function After(k: nat): Probe
      decreases k
    {
      if k == 0 then this else Step().After(k - 1)
    }
  }

  /** The tile a walk looks up after `k` misses. */
  function TileAt(p: Probe, k: nat): (int, int) {
    Tile(p.After(k).x, p.After(k).y)
  }

  /** The probe is the point at parameter `depth` on the ray from the viewer
      with direction (cos, sin), and its step moves along that ray. */
  ghost predicate OnRay(p: Probe, pose: Pose, sin: real, cos: real) {
    && p.x == pose.x + p.depth * cos
    && p.y == pose.y + p.depth * sin
    && p.dx == p.dd * cos
    && p.dy == p.dd * sin
  }

  /** The outcome of one bounded walk: where it stopped, the wall id it
      read (or the id it was given, when it found no wall), whether it
      stopped on a wall, and how many tiles it passed over first. */
  datatype Walk = Walk(x: real, y: real, depth: real, texture: int, hit: bool, steps: nat)

  /** One of the two `for i in range(MAX_DEPTH)` loops: look up the tile of
      the current point; stop on a wall, otherwise step to the next grid
      line. After `fuel` misses the loop ends and the id is left as it was. */
  function WalkGrid(world: WorldMap, p: Probe, fuel: nat, texture: int): (w: Walk)
    decreases fuel
    ensures w.steps <= fuel
    ensures w.x == p.After(w.steps).x && w.y == p.After(w.steps).y
    ensures w.depth == p.After(w.steps).depth
    ensures w.hit ==> w.steps < fuel && Tile(w.x, w.y) in world && w.texture == world[Tile(w.x, w.y)]
    ensures !w.hit ==> w.steps == fuel && w.texture == texture
    ensures forall k :: 0 <= k < w.steps ==> TileAt(p, k) !in world
  {
    if fuel == 0 then
      Walk(p.x, p.y, p.depth, texture, false, 0)
    else if Tile(p.x, p.y) in world then
      Walk(p.x, p.y, p.depth, world[Tile(p.x, p.y)], true, 0)
    else
      var w := WalkGrid(world, p.Step(), fuel - 1, texture);
      assert forall k :: 1 <= k <= w.steps ==> TileAt(p, k) == TileAt(p.Step(), k - 1);
      w.(steps := w.steps + 1)
  }

  /** Step invariant: after `k` misses the coordinates are the start plus
      `k` times (dx, dy) and the distance is the first distance plus `k`
      times `delta_depth`; the increments never change. */
  lemma {:induction false} AfterClosedForm(p: Probe, k: nat)
    decreases k
    ensures p.After(k) == Probe(p.x + k as real * p.dx, p.y + k as real * p.dy,
                                p.depth + k as real * p.dd, p.dx, p.dy, p.dd)
  {
    if k > 0 {
      AfterClosedForm(p.Step(), k - 1);
      var r := (k - 1) as real;
      assert k as real == r + 1.0;
      assert (r + 1.0) * p.dx == r * p.dx + p.dx;
      assert (r + 1.0) * p.dy == r * p.dy + p.dy;
      assert (r + 1.0) * p.dd == r * p.dd + p.dd;
    }
  }

  /** Start of the horizontal-line walk (raycasting.py:51-57): the first
      horizontal grid line in the direction of the ray, the point where the
      ray crosses it, and the per-line increments. */
  function HorizontalStart(pose: Pose, sin: real, cos: real): Probe
    requires sin != 0.0
  {
    var yHor := if sin > 0.0 then pose.mapY as real + 1.0 else pose.mapY as real - BelowLine;
    var dy := if sin > 0.0 then 1.0 else -1.0;
    var depth := (yHor - pose.y) / sin;
    var dd := dy / sin;
    Probe(pose.x + depth * cos, yHor, depth, dd * cos, dy, dd)
  }

  /** Start of the vertical-line walk (raycasting.py:70-76), the mirror
      image of `HorizontalStart` with the roles of x and y exchanged. */
  function VerticalStart(pose: Pose, sin: real, cos: real): Probe
    requires cos != 0.0
  {
    var xVert := if cos > 0.0 then pose.mapX as real + 1.0 else pose.mapX as real - BelowLine;
    var dx := if cos > 0.0 then 1.0 else -1.0;
    var depth := (xVert - pose.x) / cos;
    var dd := dx / cos;
    Probe(xVert, pose.y + depth * sin, depth, dx, dd * sin, dd)
  }

  /** The horizontal-line walk of one ray, bounded by MAX_DEPTH. */
  function HorizontalWalk(cfg: Config, world: WorldMap, pose: Pose, sin: real, cos: real, texture: int): Walk
    requires sin != 0.0
  {
    WalkGrid(world, HorizontalStart(pose, sin, cos), cfg.maxDepth, texture)
  }

  /** The vertical-line walk of one ray, bounded by MAX_DEPTH. */
  function VerticalWalk(cfg: Config, world: WorldMap, pose: Pose, sin: real, cos: real, texture: int): Walk
    requires cos != 0.0
  {
    WalkGrid(world, VerticalStart(pose, sin, cos), cfg.maxDepth, texture)
  }

  /** The selected wall hit before fisheye correction. */
  datatype Hit = Hit(depth: real, texture: int, offset: real)

  /** Keep the nearer of the two walks; on a tie the horizontal one. The
      texture offset is the fractional part of the coordinate running along
      the hit grid line, mirrored for two of the four ray directions. */
  function Nearest(hor: Walk, vert: Walk, sin: real, cos: real): (h: Hit)
    ensures h.depth <= hor.depth && h.depth <= vert.depth
    ensures vert.depth < hor.depth ==>
      h.depth == vert.depth && h.texture == vert.texture
      && h.offset == (if cos > 0.0 then Frac(vert.y) else 1.0 - Frac(vert.y))
    ensures hor.depth <= vert.depth ==>
      h.depth == hor.depth && h.texture == hor.texture
      && h.offset == (if sin > 0.0 then 1.0 - Frac(hor.x) else Frac(hor.x))
    ensures 0.0 <= h.offset <= 1.0
  {
    if vert.depth < hor.depth then
      var f := Frac(vert.y);
      Hit(vert.depth, vert.texture, if cos > 0.0 then f else 1.0 - f)
    else
      var f := Frac(hor.x);
      Hit(hor.depth, hor.texture, if sin > 0.0 then 1.0 - f else f)
  }

  /** The offset range is closed at 1: a vertical-line hit exactly on a
      grid line by a ray pointing towards negative x gets offset
      1 - (y % 1) = 1. */
  lemma OffsetReachesOne()
    ensures Nearest(Walk(0.5, 2.0, 2.0, 1, true, 0), Walk(1.0, 3.0, 1.0, 1, true, 0), 0.5, -0.5).offset == 1.0
  {
    FloorModUnique(3.0, 1.0, 0.0, 3);
  }

  /** A viewer at a negative y coordinate, looking towards negative y,
      crosses the first horizontal grid line behind it: the raw distance of
      the walk's start is negative. */
  lemma StartBehindViewer()
    ensures HorizontalStart(Pose(2.5, -0.5, 2, 0, 0.0), -0.5, 0.5).depth < 0.0
  {
  }

  /** SCREEN_DIST / (depth + 0.0001): the on-screen height of a wall slice. */
  function ProjectedHeight(cfg: Config, depth: real): (h: real)
    requires depth + Epsilon != 0.0
    ensures h * (depth + Epsilon) == cfg.screenDist
  {
    cfg.screenDist / (depth + Epsilon)
  }

  /** The values `texture_vert` and `texture_hor` that survive from one ray
      to the next; a walk that finds no wall leaves its own one unchanged. */
  datatype TexState = TexState(vert: int, hor: int)

  /** `texture_vert, texture_hor = 1, 1` before the first ray. */
  const InitialTextures := TexState(1, 1)

  /** One entry of `ray_casting_result`: (depth, proj_height, texture, offset). */
  datatype RayResult = RayResult(depth: real, projHeight: real, texture: int, offset: real)

  /** One ray's result together with the texture ids handed to the next ray. */
  datatype Column = Column(result: RayResult, textures: TexState)

  /** The body of the `for ray in range(NUM_RAYS)` loop for one ray, given
      the sine and cosine of its angle and the fisheye factor
      cos(player.angle - ray_angle). A zero sine or cosine, or a corrected
      depth of exactly -0.0001, raises ZeroDivisionError in the Python code. */
  function CastColumn(cfg: Config, world: WorldMap, pose: Pose, sin: real, cos: real, fisheye: real, tex: TexState): (r: Result<Column>)
    ensures sin == 0.0 || cos == 0.0 ==> r == Err(ZeroDivision)
    ensures r.Ok? ==> 0.0 <= r.value.result.offset <= 1.0
    ensures r.Ok? ==> r.value.result.projHeight * (r.value.result.depth + Epsilon) == cfg.screenDist
  {
    if sin == 0.0 || cos == 0.0 then
      Err(ZeroDivision)
    else
      var hor := HorizontalWalk(cfg, world, pose, sin, cos, tex.hor);
      var vert := VerticalWalk(cfg, world, pose, sin, cos, tex.vert);
      var hit := Nearest(hor, vert, sin, cos);
      assert 0.0 <= hit.offset <= 1.0;
      FinishColumn(cfg, hit, fisheye, TexState(vert.texture, hor.texture))
  }

  /** The end of the loop body once the hit is chosen: `depth *= cos(...)`,
      the projected height, and the result tuple, with the ids for the next
      ray. A corrected depth of exactly -0.0001 raises ZeroDivisionError. */
  function FinishColumn(cfg: Config, hit: Hit, fisheye: real, next: TexState): (r: Result<Column>)
    ensures r.Ok? ==> r.value.result.texture == hit.texture && r.value.result.offset == hit.offset
    ensures r.Ok? ==> r.value.result.depth == hit.depth * fisheye && r.value.textures == next
    ensures r.Ok? ==> r.value.result.projHeight * (r.value.result.depth + Epsilon) == cfg.screenDist
  {
    var depth := hit.depth * fisheye;
    if depth + Epsilon == 0.0 then
      Err(ZeroDivision)
    else
      Ok(Column(RayResult(depth, ProjectedHeight(cfg, depth), hit.texture, hit.offset), next))
  }

  /** `player.angle - HALF_FOV + 0.0001`, the angle of the leftmost ray. */
  function FirstAngle(cfg: Config, pose: Pose): real {
    pose.angle - cfg.halfFov + Epsilon
  }

  /** The `k`-th angle of a sweep, in closed form. */
  function SweepAngle(first: real, delta: real, k: nat): real {
    first + k as real * delta
  }

  /** The angle of ray `k`: `player.angle - HALF_FOV + 0.0001 + k * DELTA_ANGLE`. */
  function RayAngle(cfg: Config, pose: Pose, k: nat): real {
    SweepAngle(FirstAngle(cfg, pose), cfg.deltaAngle, k)
  }

  /** Advancing by `delta` moves from one angle of a sweep to the next. */
  lemma SweepAngleNext(first: real, delta: real, k: nat)
    ensures SweepAngle(first, delta, k) + delta == SweepAngle(first, delta, k + 1)
  {
    assert (k + 1) as real == k as real + 1.0;
    assert (k as real + 1.0) * delta == k as real * delta + delta;
  }

  /** The body of the ray loop, as a function of the ray angle and of the
      texture ids the previous ray left behind. */
  function RayBody(cfg: Config, world: WorldMap, pose: Pose, sin: real -> real, cos: real -> real)
    : (real, TexState) -> Result<Column>
  {
    (a: real, t: TexState) => CastRay(cfg, world, pose, sin, cos, a, t)
  }

  /** The loop body for the ray at `angle`: sin and cos of the ray angle,
      and the fisheye factor cos(player.angle - ray_angle). */
  function CastRay(cfg: Config, world: WorldMap, pose: Pose, sin: real -> real, cos: real -> real,
                   angle: real, tex: TexState): Result<Column>
  {
    CastColumn(cfg, world, pose, sin(angle), cos(angle), cos(pose.angle - angle), tex)
  }

  /** The `for ray in range(NUM_RAYS)` loop from ray `k` on: run the body,
      then `ray_angle += DELTA_ANGLE`. An error in any ray aborts the frame. */
  function Sweep(body: (real, TexState) -> Result<Column>, n: nat, delta: real,
                 k: nat, angle: real, tex: TexState): (r: Result<seq<Column>>)
    requires k <= n
    decreases n - k
    ensures r.Ok? ==> |r.value| == n - k
  {
    if k == n then
      Ok([])
    else
      var col :- body(angle, tex);
      var rest :- Sweep(body, n, delta, k + 1, angle + delta, col.textures);
      Ok([col] + rest)
  }

  /** All rays of one frame, starting from the initial texture ids. */
  function Columns(cfg: Config, world: WorldMap, pose: Pose, sin: real -> real, cos: real -> real): Result<seq<Column>> {
    Sweep(RayBody(cfg, world, pose, sin, cos), cfg.numRays, cfg.deltaAngle, 0, FirstAngle(cfg, pose), InitialTextures)
  }

  /** `ray_cast`: exactly NUM_RAYS results, left to right, each with its
      texture offset in [0, 1]. */
  function RayCast(cfg: Config, world: WorldMap, pose: Pose, sin: real -> real, cos: real -> real): (r: Result<seq<RayResult>>)
    ensures r.Ok? <==> Columns(cfg, world, pose, sin, cos).Ok?
    ensures r.Ok? ==> |r.value| == cfg.numRays
    ensures r.Ok? ==> forall k :: 0 <= k < |r.value| ==> 0.0 <= r.value[k].offset <= 1.0
    ensures r.Ok? ==> forall k :: 0 <= k < |r.value| ==>
      r.value[k] == Columns(cfg, world, pose, sin, cos).value[k].result
  {
    var cs :- Columns(cfg, world, pose, sin, cos);
    assert forall k :: 0 <= k < |cs| ==> 0.0 <= cs[k].result.offset <= 1.0 by {
      forall k | 0 <= k < |cs|
        ensures 0.0 <= cs[k].result.offset <= 1.0
      {
        ColumnsAreCast(cfg, world, pose, sin, cos, cs, k);
      }
    }
    Ok(seq(|cs|, k requires 0 <= k < |cs| => cs[k].result))
  }

  /** The texture ids a ray starts from: the initial ones for the first ray,
      otherwise those the previous ray left behind. */
  function TexturesBefore(cs: seq<Column>, j: nat, tex: TexState): TexState
    requires j <= |cs|
  {
    if j == 0 then tex else cs[j - 1].textures
  }

  /** Column `j` of a frame is the loop body applied to ray `j`'s closed-form
      angle and to the texture ids ray `j - 1` left behind (1, 1 for ray 0). */
  lemma ColumnsAreCast(cfg: Config, world: WorldMap, pose: Pose, sin: real -> real, cos: real -> real,
                       cs: seq<Column>, j: nat)
    requires Columns(cfg, world, pose, sin, cos) == Ok(cs)
    requires j < |cs|
    ensures CastRay(cfg, world, pose, sin, cos, RayAngle(cfg, pose, j), TexturesBefore(cs, j, InitialTextures)) == Ok(cs[j])
  {
    var first := FirstAngle(cfg, pose);
    var body := RayBody(cfg, world, pose, sin, cos);
    var a := RayAngle(cfg, pose, j);
    var t := TexturesBefore(cs, j, InitialTextures);
    assert SweepAngle(first, cfg.deltaAngle, 0) == first;
    assert a == SweepAngle(first, cfg.deltaAngle, 0 + j);
    SweepFollowsAngles(body, cfg.numRays, first, cfg.deltaAngle, 0, InitialTextures, j);
    assert body(a, t) == CastRay(cfg, world, pose, sin, cos, a, t);
  }

  /** One turn of a successful sweep: its head is the body's column for the
      current angle, its tail the sweep from the next angle onward. */
  lemma SweepUnfold(body: (real, TexState) -> Result<Column>, n: nat, delta: real,
                    k: nat, angle: real, tex: TexState)
    requires k < n
    requires Sweep(body, n, delta, k, angle, tex).Ok?
    ensures var cs := Sweep(body, n, delta, k, angle, tex).value;
      && body(angle, tex) == Ok(cs[0])
      && Sweep(body, n, delta, k + 1, angle + delta, cs[0].textures) == Ok(cs[1..])
  {
  }

  /** The sweep, which adds `delta` to the angle after every step, applies
      the body at step `k + j` to the closed-form angle of step `k + j`,
      threading the texture ids from each step into the next. */
  lemma {:induction false} SweepFollowsAngles(body: (real, TexState) -> Result<Column>, n: nat,
                                              first: real, delta: real, k: nat, tex: TexState, j: nat)
    requires k <= n
    requires Sweep(body, n, delta, k, SweepAngle(first, delta, k), tex).Ok?
    requires j < n - k
    decreases j
    ensures var cs := Sweep(body, n, delta, k, SweepAngle(first, delta, k), tex).value;
      body(SweepAngle(first, delta, k + j), TexturesBefore(cs, j, tex)) == Ok(cs[j])
  {
    var cs := Sweep(body, n, delta, k, SweepAngle(first, delta, k), tex).value;
    SweepUnfold(body, n, delta, k, SweepAngle(first, delta, k), tex);
    if j > 0 {
      SweepAngleNext(first, delta, k);
      SweepFollowsAngles(body, n, first, delta, k + 1, cs[0].textures, j - 1);
      var rest := cs[1..];
      assert cs[j] == rest[j - 1];
      assert TexturesBefore(cs, j, tex) == TexturesBefore(rest, j - 1, cs[0].textures);
      assert k + j == (k + 1) + (j - 1);
    }
  }

  // ---------------------------------------------------------------------
  // Geometry of the two walks

  /** The first horizontal-line crossing lies on the ray, and so does every
      later one: the walk moves along the ray from the viewer. */
  lemma HorizontalStartOnRay(pose: Pose, sin: real, cos: real)
    requires sin != 0.0
    ensures OnRay(HorizontalStart(pose, sin, cos), pose, sin, cos)
  {
    var p := HorizontalStart(pose, sin, cos);
    assert p.depth * sin == p.y - pose.y;
    assert p.dd * sin == p.dy;
  }

  /** The first vertical-line crossing lies on the ray. */
  lemma VerticalStartOnRay(pose: Pose, sin: real, cos: real)
    requires cos != 0.0
    ensures OnRay(VerticalStart(pose, sin, cos), pose, sin, cos)
  {
    var p := VerticalStart(pose, sin, cos);
    assert p.depth * cos == p.x - pose.x;
    assert p.dd * cos == p.dx;
  }

  /** The horizontal walk visits the tile rows in order from the viewer's:
      going towards positive y its k-th probe lies in row mapY + 1 + k, so
      no row is skipped. Going towards negative y the probe sits just below
      a grid line, in row mapY - 1 - k, as long as that line is above
      row 0; from row 0 down, `int()` truncates towards zero and the walk
      looks at row 0 again. */
  lemma HorizontalRows(pose: Pose, sin: real, cos: real, k: nat)
    requires 0.0 <= pose.y && pose.mapY == Trunc(pose.y)
    requires sin != 0.0
    ensures sin > 0.0 ==> Trunc(HorizontalStart(pose, sin, cos).After(k).y) == pose.mapY + 1 + k
    ensures sin < 0.0 && k < pose.mapY ==> Trunc(HorizontalStart(pose, sin, cos).After(k).y) == pose.mapY - 1 - k
  {
    var p := HorizontalStart(pose, sin, cos);
    AfterClosedForm(p, k);
    if sin > 0.0 {
      assert p.After(k).y == (pose.mapY + 1 + k) as real;
    } else if k < pose.mapY {
      assert p.After(k).y == (pose.mapY - k) as real - BelowLine;
    }
  }

  /** The mirror of `HorizontalRows` for the vertical walk: its k-th probe
      lies in column mapX + 1 + k going towards positive x, and in column
      mapX - 1 - k going towards negative x while that is not below 0. */
  lemma VerticalColumns(pose: Pose, sin: real, cos: real, k: nat)
    requires 0.0 <= pose.x && pose.mapX == Trunc(pose.x)
    requires cos != 0.0
    ensures cos > 0.0 ==> Trunc(VerticalStart(pose, sin, cos).After(k).x) == pose.mapX + 1 + k
    ensures cos < 0.0 && k < pose.mapX ==> Trunc(VerticalStart(pose, sin, cos).After(k).x) == pose.mapX - 1 - k
  {
    var p := VerticalStart(pose, sin, cos);
    AfterClosedForm(p, k);
    if cos > 0.0 {
      assert p.After(k).x == (pose.mapX + 1 + k) as real;
    } else if k < pose.mapX {
      assert p.After(k).x == (pose.mapX - k) as real - BelowLine;
    }
  }

  /** Steps of a walk that starts on the ray stay on the ray. */
  lemma OnRayAfter(p: Probe, pose: Pose, sin: real, cos: real, k: nat)
    requires OnRay(p, pose, sin, cos)
    ensures OnRay(p.After(k), pose, sin, cos)
  {
    AfterClosedForm(p, k);
    var r := k as real;
    assert (p.depth + r * p.dd) * cos == p.depth * cos + r * (p.dd * cos);
    assert (p.depth + r * p.dd) * sin == p.depth * sin + r * (p.dd * sin);
  }

  /** Where a walk stops, found wall or not, is the point at distance
      `depth` along the ray from the viewer. */
  lemma {:induction false} WalkStopsOnRay(world: WorldMap, p: Probe, pose: Pose, sin: real, cos: real,
                                          fuel: nat, texture: int)
    requires OnRay(p, pose, sin, cos)
    ensures var w := WalkGrid(world, p, fuel, texture);
      w.x == pose.x + w.depth * cos && w.y == pose.y + w.depth * sin
  {
    var w := WalkGrid(world, p, fuel, texture);
    OnRayAfter(p, pose, sin, cos, w.steps);
  }

  /** With the viewer standing in tile (int(x), int(y)) at non-negative
      coordinates, the first crossing of either family is strictly ahead
      and every step moves strictly further along the ray. */
  lemma StartsAhead(pose: Pose, sin: real, cos: real)
    requires 0.0 <= pose.x && 0.0 <= pose.y
    requires pose.mapX == Trunc(pose.x) && pose.mapY == Trunc(pose.y)
    ensures sin != 0.0 ==> HorizontalStart(pose, sin, cos).depth > 0.0 && HorizontalStart(pose, sin, cos).dd > 0.0
    ensures cos != 0.0 ==> VerticalStart(pose, sin, cos).depth > 0.0 && VerticalStart(pose, sin, cos).dd > 0.0
  {
    if sin != 0.0 {
      HorizontalAhead(pose, sin, cos);
    }
    if cos != 0.0 {
      VerticalAhead(pose, sin, cos);
    }
  }

  /** The horizontal half of `StartsAhead`. */
  lemma HorizontalAhead(pose: Pose, sin: real, cos: real)
    requires 0.0 <= pose.y && pose.mapY == Trunc(pose.y)
    requires sin != 0.0
    ensures HorizontalStart(pose, sin, cos).depth > 0.0 && HorizontalStart(pose, sin, cos).dd > 0.0
  {
    var p := HorizontalStart(pose, sin, cos);
    if sin > 0.0 {
      assert p.y - pose.y > 0.0;
      PositiveQuotient(p.y - pose.y, sin);
    } else {
      assert p.y - pose.y < 0.0;
      PositiveQuotient(pose.y - p.y, -sin);
      assert p.depth == (pose.y - p.y) / -sin;
    }
    assert p.dd == p.dy / sin;
  }

  /** The vertical half of `StartsAhead`. */
  lemma VerticalAhead(pose: Pose, sin: real, cos: real)
    requires 0.0 <= pose.x && pose.mapX == Trunc(pose.x)
    requires cos != 0.0
    ensures VerticalStart(pose, sin, cos).depth > 0.0 && VerticalStart(pose, sin, cos).dd > 0.0
  {
    var p := VerticalStart(pose, sin, cos);
    if cos > 0.0 {
      PositiveQuotient(p.x - pose.x, cos);
    } else {
      PositiveQuotient(pose.x - p.x, -cos);
      assert p.depth == (pose.x - p.x) / -cos;
    }
  }

  /** A positive number divided by a positive number is positive. */
  lemma PositiveQuotient(a: real, b: real)
    requires a > 0.0 && b > 0.0
    ensures a / b > 0.0
  {
  }

  /** Each step of a walk whose first step moves further along the ray
      moves further again: the distances of the probes strictly increase. */
  lemma StepsDeepen(p: Probe, k: nat)
    requires p.dd > 0.0
    ensures p.After(k + 1).depth > p.After(k).depth
  {
    AfterClosedForm(p, k);
    AfterClosedForm(p, k + 1);
    assert (k + 1) as real * p.dd == k as real * p.dd + p.dd;
  }

  /** Such a walk never reports a distance below its first crossing. */
  lemma WalkNotBeforeStart(world: WorldMap, p: Probe, fuel: nat, texture: int)
    requires p.dd > 0.0
    ensures WalkGrid(world, p, fuel, texture).depth >= p.depth
  {
    var w := WalkGrid(world, p, fuel, texture);
    AfterClosedForm(p, w.steps);
    NonNegativeProduct(w.steps as real, p.dd);
  }

  // ---------------------------------------------------------------------
  // One column

  /** The column keeps the nearer hit (the horizontal one on a tie), scales
      its distance by the fisheye factor, and hands both walks' ids to the
      next ray: an id a walk did not overwrite survives unchanged. */
  lemma ColumnSelection(cfg: Config, world: WorldMap, pose: Pose, sin: real, cos: real, fisheye: real, tex: TexState)
    requires CastColumn(cfg, world, pose, sin, cos, fisheye, tex).Ok?
    ensures sin != 0.0 && cos != 0.0
    ensures var col := CastColumn(cfg, world, pose, sin, cos, fisheye, tex).value;
      var hor := HorizontalWalk(cfg, world, pose, sin, cos, tex.hor);
      var vert := VerticalWalk(cfg, world, pose, sin, cos, tex.vert);
      && col.result.depth == (if vert.depth < hor.depth then vert.depth else hor.depth) * fisheye
      && col.result.texture == (if vert.depth < hor.depth then vert.texture else hor.texture)
      && col.textures.hor == (if hor.hit then world[Tile(hor.x, hor.y)] else tex.hor)
      && col.textures.vert == (if vert.hit then world[Tile(vert.x, vert.y)] else tex.vert)
  {
  }

  /** For a viewer inside the grid's non-negative quadrant, with a ray that
      is not axis-aligned and a non-negative fisheye factor, the column does
      not fail; its distance is non-negative and its wall height positive. */
  lemma ColumnTotal(cfg: Config, world: WorldMap, pose: Pose, sin: real, cos: real, fisheye: real, tex: TexState)
    requires cfg.Valid()
    requires 0.0 <= pose.x && 0.0 <= pose.y
    requires pose.mapX == Trunc(pose.x) && pose.mapY == Trunc(pose.y)
    requires sin != 0.0 && cos != 0.0 && fisheye >= 0.0
    ensures var r := CastColumn(cfg, world, pose, sin, cos, fisheye, tex);
      && r.Ok?
      && r.value.result.depth >= 0.0
      && r.value.result.projHeight > 0.0
  {
    WalksAhead(cfg, world, pose, sin, cos, tex);
    var hor := HorizontalWalk(cfg, world, pose, sin, cos, tex.hor);
    var vert := VerticalWalk(cfg, world, pose, sin, cos, tex.vert);
    FinishTotal(cfg, Nearest(hor, vert, sin, cos), fisheye, TexState(vert.texture, hor.texture));
  }

  /** For a viewer in the non-negative quadrant both walks of a ray that is
      not axis-aligned end strictly ahead of the viewer. */
  lemma WalksAhead(cfg: Config, world: WorldMap, pose: Pose, sin: real, cos: real, tex: TexState)
    requires 0.0 <= pose.x && 0.0 <= pose.y
    requires pose.mapX == Trunc(pose.x) && pose.mapY == Trunc(pose.y)
    requires sin != 0.0 && cos != 0.0
    ensures HorizontalWalk(cfg, world, pose, sin, cos, tex.hor).depth > 0.0
    ensures VerticalWalk(cfg, world, pose, sin, cos, tex.vert).depth > 0.0
  {
    StartsAhead(pose, sin, cos);
    WalkNotBeforeStart(world, HorizontalStart(pose, sin, cos), cfg.maxDepth, tex.hor);
    WalkNotBeforeStart(world, VerticalStart(pose, sin, cos), cfg.maxDepth, tex.vert);
  }

  /** A product of non-negative numbers is non-negative. */
  lemma NonNegativeProduct(a: real, b: real)
    requires a >= 0.0 && b >= 0.0
    ensures a * b >= 0.0
  {
  }

  /** Fisheye correction: with a factor in (0, 1] the corrected distance is
      at most the raw distance of the hit, and equal to it for the ray that
      points straight ahead (factor 1). */
  lemma FisheyeShortens(cfg: Config, hit: Hit, fisheye: real, next: TexState)
    requires 0.0 < fisheye <= 1.0
    ensures var r := FinishColumn(cfg, hit, fisheye, next);
      r.Ok? ==>
        && (hit.depth >= 0.0 ==> r.value.result.depth <= hit.depth)
        && (fisheye == 1.0 ==> r.value.result.depth == hit.depth)
  {
    ScaledDown(hit.depth, fisheye);
  }

  /** A hit ahead of the viewer and a non-negative fisheye factor give a
      column with a non-negative distance and a positive wall height. */
  lemma FinishTotal(cfg: Config, hit: Hit, fisheye: real, next: TexState)
    requires cfg.Valid()
    requires hit.depth >= 0.0 && fisheye >= 0.0
    ensures var r := FinishColumn(cfg, hit, fisheye, next);
      && r.Ok?
      && r.value.result.depth >= 0.0
      && r.value.result.projHeight > 0.0
  {
    NonNegativeProduct(hit.depth, fisheye);
    PositiveQuotient(cfg.screenDist, hit.depth * fisheye + Epsilon);
  }

  /** Scaling by a factor in (0, 1] does not increase a non-negative value,
      and scaling by 1 keeps it. */
  lemma ScaledDown(v: real, f: real)
    requires 0.0 < f <= 1.0
    ensures v >= 0.0 ==> v * f <= v
    ensures f == 1.0 ==> v * f == v
  {
    if v >= 0.0 {
      NonNegativeProduct(v, 1.0 - f);
    }
  }

  /** Closer walls are drawn taller: the projected height is positive and
      strictly decreasing in the corrected distance. */
  lemma ProjectedHeightDecreasing(cfg: Config, d1: real, d2: real)
    requires cfg.Valid()
    requires 0.0 <= d1 < d2
    ensures ProjectedHeight(cfg, d1) > ProjectedHeight(cfg, d2) > 0.0
  {
    var a := d1 + Epsilon;
    var b := d2 + Epsilon;
    PositiveQuotient(cfg.screenDist, b);
    var h1 := ProjectedHeight(cfg, d1);
    var h2 := ProjectedHeight(cfg, d2);
    assert h1 * a == cfg.screenDist && h2 * b == cfg.screenDist;
    assert h2 * a < h2 * b;
  }

  // ---------------------------------------------------------------------
  // The whole frame

  /** A sweep whose body succeeds at every remaining angle, whatever ids it
      is handed, succeeds as a whole. */
  lemma {:induction false} SweepTotal(body: (real, TexState) -> Result<Column>, n: nat,
                                      first: real, delta: real, k: nat, tex: TexState)
    requires k <= n
    requires forall j, t :: k <= j < n ==> body(SweepAngle(first, delta, j), t).Ok?
    decreases n - k
    ensures Sweep(body, n, delta, k, SweepAngle(first, delta, k), tex).Ok?
  {
    if k < n {
      var col := body(SweepAngle(first, delta, k), tex);
      assert col.Ok?;
      SweepAngleNext(first, delta, k);
      SweepTotal(body, n, first, delta, k + 1, col.value.textures);
    }
  }

  /** The frame does not fail when the viewer stands in the non-negative
      quadrant at tile (int(x), int(y)), no ray is axis-aligned, and every
      fisheye factor is non-negative; then every result has a non-negative
      distance and a positive wall height. */
  lemma RayCastTotal(cfg: Config, world: WorldMap, pose: Pose, sin: real -> real, cos: real -> real)
    requires cfg.Valid()
    requires 0.0 <= pose.x && 0.0 <= pose.y
    requires pose.mapX == Trunc(pose.x) && pose.mapY == Trunc(pose.y)
    requires forall k :: 0 <= k < cfg.numRays ==>
      var a := RayAngle(cfg, pose, k);
      sin(a) != 0.0 && cos(a) != 0.0 && cos(pose.angle - a) >= 0.0
    ensures RayCast(cfg, world, pose, sin, cos).Ok?
    ensures forall k :: 0 <= k < |RayCast(cfg, world, pose, sin, cos).value| ==>
      RayCast(cfg, world, pose, sin, cos).value[k].depth >= 0.0
      && RayCast(cfg, world, pose, sin, cos).value[k].projHeight > 0.0
  {
    ColumnsTotal(cfg, world, pose, sin, cos);
    var cs := Columns(cfg, world, pose, sin, cos).value;
    var rs := RayCast(cfg, world, pose, sin, cos).value;
    forall k | 0 <= k < |rs|
      ensures rs[k].depth >= 0.0 && rs[k].projHeight > 0.0
    {
      FrameColumnTotal(cfg, world, pose, sin, cos, cs, k);
      assert rs[k] == cs[k].result;
    }
  }

  /** Under the conditions of `RayCastTotal` column `k` of a frame has a
      non-negative distance and a positive wall height. */
  lemma FrameColumnTotal(cfg: Config, world: WorldMap, pose: Pose, sin: real -> real, cos: real -> real,
                         cs: seq<Column>, k: nat)
    requires cfg.Valid()
    requires 0.0 <= pose.x && 0.0 <= pose.y
    requires pose.mapX == Trunc(pose.x) && pose.mapY == Trunc(pose.y)
    requires var a := RayAngle(cfg, pose, k);
      sin(a) != 0.0 && cos(a) != 0.0 && cos(pose.angle - a) >= 0.0
    ensures Columns(cfg, world, pose, sin, cos) == Ok(cs) && k < |cs| ==>
      cs[k].result.depth >= 0.0 && cs[k].result.projHeight > 0.0
  {
    if Columns(cfg, world, pose, sin, cos) != Ok(cs) || k >= |cs| {
      return;
    }
    ColumnsAreCast(cfg, world, pose, sin, cos, cs, k);
    var a := RayAngle(cfg, pose, k);
    CastRayTotal(cfg, world, pose, sin, cos, a, TexturesBefore(cs, k, InitialTextures));
  }

  /** `ColumnTotal` for the loop body at angle `a`. */
  lemma CastRayTotal(cfg: Config, world: WorldMap, pose: Pose, sin: real -> real, cos: real -> real,
                     a: real, t: TexState)
    requires cfg.Valid()
    requires 0.0 <= pose.x && 0.0 <= pose.y
    requires pose.mapX == Trunc(pose.x) && pose.mapY == Trunc(pose.y)
    requires sin(a) != 0.0 && cos(a) != 0.0 && cos(pose.angle - a) >= 0.0
    ensures var r := CastRay(cfg, world, pose, sin, cos, a, t);
      r.Ok? && r.value.result.depth >= 0.0 && r.value.result.projHeight > 0.0
  {
    ColumnTotal(cfg, world, pose, sin(a), cos(a), cos(pose.angle - a), t);
  }

  /** Under the conditions of `RayCastTotal` every column succeeds. */
  lemma ColumnsTotal(cfg: Config, world: WorldMap, pose: Pose, sin: real -> real, cos: real -> real)
    requires cfg.Valid()
    requires 0.0 <= pose.x && 0.0 <= pose.y
    requires pose.mapX == Trunc(pose.x) && pose.mapY == Trunc(pose.y)
    requires forall k :: 0 <= k < cfg.numRays ==>
      var a := RayAngle(cfg, pose, k);
      sin(a) != 0.0 && cos(a) != 0.0 && cos(pose.angle - a) >= 0.0
    ensures Columns(cfg, world, pose, sin, cos).Ok?
  {
    var first := FirstAngle(cfg, pose);
    var body := RayBody(cfg, world, pose, sin, cos);
    forall j, t | 0 <= j < cfg.numRays
      ensures body(SweepAngle(first, cfg.deltaAngle, j), t).Ok?
    {
      var a := RayAngle(cfg, pose, j);
      ColumnTotal(cfg, world, pose, sin(a), cos(a), cos(pose.angle - a), t);
      assert body(a, t) == CastRay(cfg, world, pose, sin, cos, a, t);
    }
    assert SweepAngle(first, cfg.deltaAngle, 0) == first;
    SweepTotal(body, cfg.numRays, first, cfg.deltaAngle, 0, InitialTextures);
  }

  /** In a map with no walls every walk runs out of steps, so every ray
      reports the initial wall id 1 (the ids are never overwritten). */
  lemma OpenMapKeepsInitialTexture(cfg: Config, pose: Pose, sin: real -> real, cos: real -> real, k: nat)
    requires RayCast(cfg, map[], pose, sin, cos).Ok?
    requires k < cfg.numRays
    ensures RayCast(cfg, map[], pose, sin, cos).value[k].texture == 1
  {
    var cs := Columns(cfg, map[], pose, sin, cos).value;
    OpenMapKeepsIds(cfg, pose, sin, cos, cs, k);
  }

  /** In a map with no walls the ids handed from ray to ray stay (1, 1). */
  lemma {:induction false} OpenMapKeepsIds(cfg: Config, pose: Pose, sin: real -> real, cos: real -> real,
                                           cs: seq<Column>, k: nat)
    requires Columns(cfg, map[], pose, sin, cos) == Ok(cs)
    requires k < |cs|
    ensures cs[k].textures == InitialTextures
    ensures cs[k].result.texture == 1
    decreases k
  {
    if k > 0 {
      OpenMapKeepsIds(cfg, pose, sin, cos, cs, k - 1);
    }
    assert TexturesBefore(cs, k, InitialTextures) == InitialTextures;
    ColumnsAreCast(cfg, map[], pose, sin, cos, cs, k);
    var a := RayAngle(cfg, pose, k);
    ColumnSelection(cfg, map[], pose, sin(a), cos(a), cos(pose.angle - a), InitialTextures);
  }

  // ---------------------------------------------------------------------
  // Strips to draw (get_objects_to_render)

  /** A rectangle as handed to `subsurface`: left, top, width, height. */
  datatype Rect = Rect(left: real, top: real, width: real, height: real)

  /** One entry of `objects_to_render`, (depth, wall_column, wall_pos): the
      wall column is described by the texture it is cut from, the rectangle
      cut out of it and the size it is scaled to. */
  datatype Strip = Strip(depth: real, texture: int, source: Rect, width: real, height: real, x: real, y: real)

  /** The strip for ray number `ray`. A wall lower than the screen is cut
      at full texture height and scaled to its projected height, centred on
      the horizon; a taller wall is cut to the visible middle part of the
      texture and scaled to the full screen height. */
  function MakeStrip(cfg: Config, ray: nat, r: RayResult): (s: Strip)
    requires cfg.Valid()
    ensures s.depth == r.depth && s.texture == r.texture
    ensures s.x == (ray * cfg.scale) as real
    ensures s.width == cfg.scale as real && s.source.width == cfg.scale as real
    ensures s.source.left == r.offset * CutSpan(cfg)
    ensures 0.0 <= r.offset <= 1.0 ==> 0.0 <= s.source.left <= CutSpan(cfg)
    ensures r.projHeight < cfg.height as real ==>
      && s.height == r.projHeight
      && s.y == cfg.halfHeight as real - FloorDiv(r.projHeight, 2.0)
      && s.source.top == 0.0 && s.source.height == cfg.textureSize as real
      && 0.0 <= s.y
      && cfg.halfHeight as real <= s.y + r.projHeight / 2.0 < cfg.halfHeight as real + 1.0
    ensures cfg.height as real <= r.projHeight ==>
      && s.y == 0.0 && s.height == cfg.height as real
      && s.source.height == (cfg.textureSize * cfg.height) as real / r.projHeight
      && s.source.top == cfg.halfTextureSize as real - FloorDiv(s.source.height, 2.0)
      && 0.0 <= s.source.top
      && s.source.height <= cfg.textureSize as real
      && s.source.top + s.source.height < cfg.textureSize as real + 1.0
  {
    var left := CutStart(r.offset, CutSpan(cfg));
    if r.projHeight < cfg.height as real then
      var y := cfg.halfHeight as real - FloorDiv(r.projHeight, 2.0);
      CentredOnHorizon(cfg.height, cfg.halfHeight, r.projHeight);
      Strip(r.depth, r.texture, Rect(left, 0.0, cfg.scale as real, cfg.textureSize as real),
            cfg.scale as real, r.projHeight, (ray * cfg.scale) as real, y)
    else
      var textureHeight := (cfg.textureSize * cfg.height) as real / r.projHeight;
      CropInsideTexture(cfg.textureSize, cfg.halfTextureSize, cfg.height, r.projHeight);
      var top := cfg.halfTextureSize as real - FloorDiv(textureHeight, 2.0);
      Strip(r.depth, r.texture, Rect(left, top, cfg.scale as real, textureHeight),
            cfg.scale as real, cfg.height as real, (ray * cfg.scale) as real, 0.0)
  }

  /** TEXTURE_SIZE - SCALE: the texture columns a cut may start at. */
  function CutSpan(cfg: Config): real {
    (cfg.textureSize - cfg.scale) as real
  }

  /** The first texture column of the cut, `offset * (TEXTURE_SIZE - SCALE)`. */
  function CutStart(offset: real, span: real): (left: real)
    requires span >= 0.0
    ensures 0.0 <= offset <= 1.0 ==> 0.0 <= left <= span
  {
    CutStartFits(offset, span);
    offset * span
  }

  /** For an offset in [0, 1] the cut starts in [0, TEXTURE_SIZE - SCALE],
      so a SCALE-wide cut from there fits the texture. */
  lemma CutStartFits(offset: real, span: real)
    requires span >= 0.0
    ensures 0.0 <= offset <= 1.0 ==> 0.0 <= offset * span <= span
  {
    if 0.0 <= offset <= 1.0 {
      NonNegativeProduct(offset, span);
      NonNegativeProduct(1.0 - offset, span);
    }
  }

  /** A wall lower than the screen is placed at
      y = HALF_HEIGHT - proj_height // 2: not above the top of the screen,
      and with its middle within one pixel below the horizon. */
  lemma CentredOnHorizon(height: int, halfHeight: int, proj: real)
    requires height > 0 && halfHeight == height / 2
    requires proj < height as real
    ensures var y := halfHeight as real - FloorDiv(proj, 2.0);
      0.0 <= y && halfHeight as real <= y + proj / 2.0 < halfHeight as real + 1.0
  {
    HalfAtMost(proj, height);
  }

  /** For a value at most `n`, its floored half does not exceed `n // 2`. */
  lemma HalfAtMost(v: real, n: int)
    requires v <= n as real
    ensures FloorDiv(v, 2.0) <= (n / 2) as real
  {
    var q := FloorDiv(v, 2.0);
    var m := n / 2;
    assert n == 2 * m + n % 2 && 0 <= n % 2 <= 1;
    assert q.Floor as real == q;
    assert q < m as real + 1.0;
    assert q.Floor < m + 1;
  }

  /** The cut of a wall taller than the screen,
      rows [HALF_TEXTURE_SIZE - h // 2, HALF_TEXTURE_SIZE - h // 2 + h) with
      h = TEXTURE_SIZE * HEIGHT / proj_height, starts inside the texture, is
      at most TEXTURE_SIZE rows high, and ends less than one row past it. */
  lemma CropInsideTexture(size: int, halfSize: int, height: int, proj: real)
    requires size > 0 && halfSize == size / 2 && height > 0
    requires height as real <= proj
    ensures var h := (size * height) as real / proj;
      var top := halfSize as real - FloorDiv(h, 2.0);
      && 0.0 < h <= size as real
      && 0.0 <= top
      && top + h < size as real + 1.0
  {
    var h := (size * height) as real / proj;
    CropWithinTexture(size, height, proj);
    HalfAtMost(h, size);
    var q := FloorDiv(h, 2.0);
    assert h / 2.0 < q + 1.0;
    assert size == 2 * halfSize + size % 2;
    assert size as real - halfSize as real >= size as real / 2.0;
  }

  /** A wall at least as tall as the screen is cut to
      TEXTURE_SIZE * HEIGHT / proj_height <= TEXTURE_SIZE texture rows. */
  lemma CropWithinTexture(size: int, height: int, proj: real)
    requires size > 0 && height > 0
    requires height as real <= proj
    ensures 0.0 < (size * height) as real / proj <= size as real
  {
    var c := (size * height) as real / proj;
    assert c * proj == (size * height) as real;
    assert (size * height) as real == size as real * height as real;
    PositiveQuotient((size * height) as real, proj);
    if c > size as real {
      assert c * proj > size as real * proj;
      assert size as real * proj >= size as real * height as real;
    }
  }

  /** `get_objects_to_render` from result `k` on: one strip per result,
      in column order. Looking up the texture of a wall id that has none
      raises KeyError, which ends the loop. */
  function StripsFrom(cfg: Config, textures: set<int>, results: seq<RayResult>, k: nat): (r: Result<seq<Strip>>)
    requires cfg.Valid()
    requires k <= |results|
    decreases |results| - k
    ensures r.Ok? <==> forall i :: k <= i < |results| ==> results[i].texture in textures
    ensures r.Ok? ==> |r.value| == |results| - k
    ensures r.Ok? ==> forall i :: 0 <= i < |r.value| ==> r.value[i] == MakeStrip(cfg, k + i, results[k + i])
    ensures r.Err? ==> r.error.MissingTexture? && r.error.id !in textures
  {
    if k == |results| then
      Ok([])
    else if results[k].texture !in textures then
      Err(MissingTexture(results[k].texture))
    else
      var rest :- StripsFrom(cfg, textures, results, k + 1);
      assert forall i :: 1 <= i < |rest| + 1 ==> ([MakeStrip(cfg, k, results[k])] + rest)[i] == rest[i - 1];
      Ok([MakeStrip(cfg, k, results[k])] + rest)
  }

  /** The KeyError names the wall id of the first ray, from `k` on, whose
      texture is missing. */
  lemma {:induction false} StripsFromReportsFirstMissing(cfg: Config, textures: set<int>,
      results: seq<RayResult>, k: nat, i: nat)
    requires cfg.Valid()
    requires k <= i < |results|
    requires forall j :: k <= j < i ==> results[j].texture in textures
    requires results[i].texture !in textures
    decreases i - k
    ensures StripsFrom(cfg, textures, results, k) == Err(MissingTexture(results[i].texture))
  {
    if k < i {
      StripsFromReportsFirstMissing(cfg, textures, results, k + 1, i);
    }
  }

  /** The frame's KeyError names the first missing wall id, left to right. */
  lemma ObjectsToRenderReportsFirstMissing(cfg: Config, textures: set<int>, results: seq<RayResult>, i: nat)
    requires cfg.Valid()
    requires i < |results|
    requires forall j :: 0 <= j < i ==> results[j].texture in textures
    requires results[i].texture !in textures
    ensures ObjectsToRender(cfg, textures, results) == Err(MissingTexture(results[i].texture))
  {
    StripsFromReportsFirstMissing(cfg, textures, results, 0, i);
  }

  /** `get_objects_to_render`: the strips of all ray results, or the
      KeyError of the first wall id without a texture. */
  function ObjectsToRender(cfg: Config, textures: set<int>, results: seq<RayResult>): (r: Result<seq<Strip>>)
    requires cfg.Valid()
    ensures r.Ok? <==> forall i :: 0 <= i < |results| ==> results[i].texture in textures
    ensures r.Ok? ==> |r.value| == |results|
    ensures r.Ok? ==> forall i :: 0 <= i < |r.value| ==>
      r.value[i].depth == results[i].depth && r.value[i].x == (i * cfg.scale) as real
    ensures r.Ok? ==> forall i :: 0 <= i < |r.value| ==> r.value[i] == MakeStrip(cfg, i, results[i])
  {
    StripsFrom(cfg, textures, results, 0)
  }

  /** Every strip of a frame cuts its column from inside the texture:
      the ray caster's offsets lie in [0, 1], so the cut starts in
      [0, TEXTURE_SIZE - SCALE]; strips are laid out left to right,
      SCALE pixels apart. */
  lemma FrameStripsInTexture(cfg: Config, world: WorldMap, pose: Pose, sin: real -> real, cos: real -> real,
                             textures: set<int>)
    requires cfg.Valid()
    ensures var rr := RayCast(cfg, world, pose, sin, cos);
      rr.Ok? && ObjectsToRender(cfg, textures, rr.value).Ok? ==>
        var ss := ObjectsToRender(cfg, textures, rr.value).value;
        && |ss| == cfg.numRays
        && (forall i :: 0 <= i < |ss| ==> 0.0 <= ss[i].source.left <= CutSpan(cfg))
        && (forall i :: 0 < i < |ss| ==> ss[i].x == ss[i - 1].x + cfg.scale as real)
  {
    var rr := RayCast(cfg, world, pose, sin, cos);
    if rr.Ok? && ObjectsToRender(cfg, textures, rr.value).Ok? {
      var rs := rr.value;
      var ss := ObjectsToRender(cfg, textures, rs).value;
      forall i | 0 <= i < |ss|
        ensures 0.0 <= ss[i].source.left <= CutSpan(cfg)
      {
        assert ss[i] == MakeStrip(cfg, i, rs[i]);
      }
      forall i | 0 < i < |ss|
        ensures ss[i].x == ss[i - 1].x + cfg.scale as real
      {
        assert i * cfg.scale == (i - 1) * cfg.scale + cfg.scale;
      }
    }
  }
}

=== FILE: results.dfy ===
/** Failure-compatible result type for the renderer. Each error names the
    Python exception the renderer raises at that point. */
module Results {

  /** The exceptions the modelled code can raise. */
  datatype Error =
    | ZeroDivision              // float division by zero (ZeroDivisionError)
    | MissingTexture(id: int)   // wall id absent from the texture table (KeyError)
    | MissingDigit(key: string) // character with no digit image (KeyError)

  datatype Result<+T> = Ok(value: T) | Err(error: Error) {

    predicate IsFailure() {
      Err?
    }

    function PropagateFailure<U>(): Result<U>
      requires Err?
    {
      Err(error)
    }

    function Extract(): T
      requires Ok?
    {
      value
    }
  }
}

=== FILE: settings.dfy ===
/** The screen and projection constants the renderer reads from its
    settings. settings.py is not part of this model, so the constants are
    carried as one record and only the relations between them that the
    renderer relies on are assumed. */
module Settings {

  datatype Config = Config(
    width: int,            // WIDTH, screen width in pixels
    height: int,           // HEIGHT, screen height in pixels
    halfHeight: int,       // HALF_HEIGHT
    numRays: nat,          // NUM_RAYS, one ray per strip
    maxDepth: nat,         // MAX_DEPTH, grid-line crossings tried per walk
    textureSize: int,      // TEXTURE_SIZE, side of a square wall texture
    halfTextureSize: int,  // HALF_TEXTURE_SIZE
    scale: int,            // SCALE, pixel width of one strip
    screenDist: real,      // SCREEN_DIST, distance to the projection plane
    halfFov: real,         // HALF_FOV in radians
    deltaAngle: real)      // DELTA_ANGLE, angle between neighbouring rays
  {
    /** The relations between the constants: positive sizes, halves taken
        by integer floor division, strips no wider than a texture. */
    predicate Valid() {
      && width > 0
      && height > 0
      && halfHeight == height / 2
      && numRays > 0
      && maxDepth > 0
      && textureSize > 0
      && halfTextureSize == textureSize / 2
      && 0 < scale <= textureSize
      && screenDist > 0.0
    }
  }
}
